=== FILE: README.md ===
# quake: middleware stack and decorators, modelled in Dafny

quake is a small Go library of HTTP middleware. It has three parts:

- **The `Middleware` stack** (`quake.go`). `Add` appends decorators (`MiddlewareFunc` values) to an ordered list. `Wrap` folds that list from last to first around a terminal `http.Handler`, so the first decorator added ends up outermost. `ServeHTTP` delegates to the composed handler.
- **The response-writer wrappers** (`common/custom_types.go`). `LogResponseWriter` starts at status 200, overwrites its code with each code passed to `WriteHeader`, and forwards each call to the writer it wraps. `GzipResponseWriter` pairs the real writer with a gzip compressor.
- **The decorators** (`common/common.go`):
  - `DontCache` sets a default `Cache-Control` header.
  - `Logger` prints `[addr] METHOD /path -code` after the handler has run.
  - `Gzip` sets `Content-Encoding: gzip` when the request's `Accept-Encoding` contains the substring `gzip`, and hands the handler a wrapper meant to compress its body (see Findings: as written, body bytes bypass the compressor).

Layout, one module per file:

- `wrappers.dfy` (`Wrappers`): `Option`.
- `quake.dfy` (`Quake`): the stack. Handlers are abstract: a terminal handler is `Terminal(id)`, and applying decorator `d` to handler `h` gives `Wrapped(d, h)`. `Trace` lists what serving a request does: each decorator adds `Before(d)` on the way in and `After(d)` on the way out, and the terminal handler adds `Run(t)`. The `Middleware` class has the source's two fields: `stack`, a `seq`, and `final`, an `Option` in which `None` stands for the nil handler. `Add` and `Wrap` are loops. `Add` is proved to append its arguments to the stack, and `Wrap` is proved equal to the recursive `Compose`.
- `gostrings.dfy` (`GoStrings`): the Go library functions the decorators call: `strings.LastIndex`, `strings.TrimPrefix`, `strings.Contains`, and the decimal form that `%d` prints. Each one has a partner definition, such as the occurrences of a substring or the parse of a numeral.
- `http.dfy` (`Http`): the parts of `net/http` the decorators touch.
  - The writer is a recording `ResponseWriter` class. Its state is a header map, the list of status codes it received, and the body as chunks.
  - A downstream handler (`next`) is the script of calls it makes on its writer: `SetHeader`, `WriteHeader` or `Write`.
  - `Exec` gives the meaning of a script run against an uncompressed writer.
  - `Codes`, `LastSet`, `Payload` and `LastCode` read facts off the script alone.
  - Lemmas connect `Exec` to these functions.
  - `Decode` is what a client reads from the body, according to its `Content-Encoding`.
- `custom_types.dfy` (`CustomTypes`): `LogResponseWriter` and `GzipResponseWriter` as classes, and the loops that run a script against them. `GzipWriter` stands in for `compress/gzip`'s writer.
- `common.dfy` (`Common`): the three decorators as methods, each proved against a specification function of the old response. The lemmas about those functions state the decorators' promises.

## Model

| member | source | states |
|---|---|---|
| `Quake.Middleware.constructor` | quake.go:17-21 | NewMiddleware: the stack is empty and no composed handler is set (nil) |
| `Quake.Middleware.Add` | quake.go:24-28 | the new stack is the old stack followed by the arguments in argument order; earlier entries are unchanged; no arguments leaves it unchanged; the composed handler is untouched |
| `Quake.Middleware.Wrap` | quake.go:36-41 | restarts from the given handler and folds the stack from last to first: the composed handler is `stack[0](stack[1](...(h)))`, so an empty stack gives exactly `h`; the stack is not modified |
| `Quake.Compose` | quake.go:38-40 | the fold `Wrap` performs: the composed handler's decorators, outermost first, are the stack in registration order followed by those already around the given handler, and its terminal handler is the given one |
| `Quake.Middleware.ServeHTTP` | quake.go:31-33 | delegates to the composed handler; before any `Wrap` the handler is nil |
| `Quake.TraceOfCompose` | quake.go:36-41 | serving through the composed stack runs every decorator's "before" part in registration order, then the wrapped handler, then the "after" parts in reverse order |
| `Quake.EffectOrder` | quake.go:38-40 | the same trace position by position: `2n+1` events, with event `i` being `Before(ds[i])`, event `n` being the terminal handler, and the last `n` events being the decorators' `After` in reverse order |
| `Quake.TwoDecorators` | quake.go:38-40 | decorators A then B around terminal T give A-before, B-before, T, B-after, A-after |
| `Quake.ComposeAppend` | quake.go:24-28 | composing `a + b` equals composing `b` first and then `a` around it: decorators added later sit inside the earlier ones |
| `Quake.WrapTwice` | quake.go:36-41 | calling `Wrap` again with the same stack and handler gives the same composed handler, so serving behaves identically |
| `Quake.AddAfterWrap` | quake.go:24-41 | decorators added after a `Wrap` do not change the composed handler until the next `Wrap`, which places them innermost, around the terminal handler |
| `Quake.ServeBeforeWrap` | quake.go:31-33 | serving from a stack that was never wrapped reaches the nil handler, whatever was added |
| `GoStrings.LastIndex` | common/common.go:36 | strings.LastIndex: -1 exactly when the separator does not occur; otherwise an occurrence with no occurrence after it |
| `GoStrings.LastIndexChar` | common/common.go:36 | for the one-character separator ":", the result is -1 exactly when there is no ':'; otherwise it is the index of a ':' with none after it |
| `GoStrings.TrimPrefix` | common/common.go:39 | strings.TrimPrefix: when `s` starts with the prefix, the prefix followed by the result gives back `s`; otherwise the result is `s` |
| `GoStrings.Contains` | common/common.go:50 | strings.Contains holds exactly when the substring occurs at some index |
| `GoStrings.FormatInt` | common/common.go:40 | the `%d` form of an int: non-empty, no space, a leading '-' exactly when the int is negative, and decimal digits after the sign with no leading zero unless the int is 0 |
| `GoStrings.ParseNatDecimal` | common/common.go:40 | the decimal digits of a natural number read back as that number |
| `GoStrings.FormatIntRoundTrip` | common/common.go:40 | what `%d` prints for an int, including a leading '-', reads back as that int |
| `Http.Serve` | common/common.go:17 | running a handler against the real writer leaves the writer in the state `Exec` gives for the handler's calls |
| `Http.ExecCodes` | common/custom_types.go:28-31 | the writer receives exactly the status codes the handler writes, in order |
| `Http.ExecHeader` | common/common.go:13-17 | header writes are last-write-wins: a key the handler sets holds the last value it set, and every other key keeps its earlier value |
| `Http.ExecBody` | common/common.go:51 | on an uncompressed writer the body grows by exactly the bytes the handler writes |
| `Http.ExecWithoutWrites` | common/common.go:57 | a handler whose body writes are diverted to a compressor still makes every header and status change on the real writer, and leaves its body alone |
| `Http.ExecIgnoresHeader` | common/common.go:16-17 | the header map a handler starts with affects nothing but the header map |
| `Http.ExecGunzip` | common/common.go:54-57 | bytes written straight to the real writer are taken not to be a gzip stream: the body then decodes as gzip only if no byte was written |
| `Http.LastCodeIsLastWritten` | common/custom_types.go:24-29 | the last code written, or the initial code if none was written, is the last element of the handler's list of status codes, or that initial code if the list is empty |
| `CustomTypes.LogResponseWriter.constructor` | common/custom_types.go:23-25 | NewLogResponseWriter wraps exactly the given writer and starts at `http.StatusOK` |
| `CustomTypes.LogResponseWriter.WriteHeader` | common/custom_types.go:28-31 | sets the recorded code to `c` and forwards the same `c` to the wrapped writer, once |
| `CustomTypes.ServeLogged` | common/common.go:42 | a handler run against the wrapper leaves the wrapped writer as the handler alone would, and the recorded code is the last code written (or the starting one) |
| `CustomTypes.LoggedRun` | common/custom_types.go:23-31 | after any sequence of `WriteHeader` calls on a new wrapper, the recorded code is the last one passed, or 200 if there were none, and the wrapped writer saw exactly that sequence |
| `CustomTypes.GzipWriter.constructor` | common/common.go:55 | `gzip.NewWriter(w)`: a compressor over the real writer with nothing buffered |
| `CustomTypes.GzipWriter.Write` | common/common.go:55-57 | bytes written to the compressor are buffered after the earlier ones, in order, and the real writer is untouched |
| `CustomTypes.GzipWriter.Close` | common/common.go:56 | `gz.Close()`: the buffered bytes reach the real writer's body as one gzip member, and nothing else on it changes |
| `CustomTypes.GzipResponseWriter.constructor` | common/custom_types.go:17-20 | the wrapper holds the real writer and the compressor |
| `CustomTypes.GzipResponseWriter.Write` | common/custom_types.go:17-20 | the Write method the type needs, which sends body bytes to the compressor (see Findings) |
| `CustomTypes.ServeGzipped` | common/common.go:57 | through the compressing wrapper, header and status calls reach the real writer, and body bytes reach the compressor in order |
| `Common.DontCache` | common/common.go:14-19 | sets the Cache-Control default, then runs `next` on the same writer |
| `Common.DontCacheDefault` | common/common.go:13-17 | in the writer's header map, the final Cache-Control is the last value `next` set, or `max-age=0, no-cache, must-revalidate` if it set none |
| `Common.DontCacheTouchesOnlyCacheControl` | common/common.go:14-19 | apart from Cache-Control, the headers, status codes and body are what `next` alone produces |
| `Common.StripPort` | common/common.go:35-38 | with a ':' in the address, the logged address is the prefix before the last ':'; without one it is the address unchanged |
| `Common.StripPortIPv4` | common/common.go:35-38 | "203.0.113.5:54321" is logged as "203.0.113.5" |
| `Common.StripPortNoColon` | common/common.go:35-38 | "no-colon-addr" is logged unchanged |
| `Common.Logger` | common/common.go:31-44 | runs `next` against a fresh LogResponseWriter, leaving the real writer as `next` alone would; afterwards it builds the line from the code the wrapper holds |
| `Common.LoggedPath` | common/common.go:39-40 | one leading '/' is trimmed and the format prints one back, so a URL starting with '/' appears unchanged (`//a` stays `//a`); any other URL appears with a '/' in front |
| `Common.LogLine` | common/common.go:35-40 | the line `[addr] METHOD /path -code` begins with the stripped address in brackets, a space, the method, a space, the logged path and " -", followed directly by the `%d` form of the code and nothing else; the numeral after its last " -" reads back as exactly the code, even when the URL contains " -" |
| `Common.LoggerReportsStatus` | common/common.go:40-42 | the logged code is the last status `next` wrote, or 200 if it wrote none |
| `Common.AcceptsGzip` | common/common.go:50 | true exactly when the request has an Accept-Encoding header containing the substring "gzip"; a request without the header does not accept gzip |
| `Common.Gzip` | common/common.go:48-59 | without "gzip" in Accept-Encoding, runs `next` on the original writer; otherwise it sets Content-Encoding to gzip, runs `next` on a compressing wrapper and closes the compressor afterwards (with the wrapper's missing Write supplied) |
| `Common.GzipAsWritten` | common/common.go:48-59 | the same decorator as the code is written: body writes reach the real writer, and closing the unused compressor appends an empty gzip member |
| `Common.GzipTransparent` | common/common.go:50-53 | without "gzip" in Accept-Encoding the decorator, corrected or as written, leaves the response exactly as `next` alone makes it |
| `Common.GzipDeclined` | common/common.go:50-53 | without "gzip" in Accept-Encoding, a handler that sets no Content-Encoding gets none, and the body reads back as exactly what `next` wrote |
| `Common.GzipContentEncoding` | common/common.go:54 | with "gzip" in Accept-Encoding, in the writer's header map Content-Encoding is set to gzip before `next` runs, so it holds unless `next` sets it again |
| `Common.GzipNegotiated` | common/common.go:54-57 | with "gzip" in Accept-Encoding, the response carries Content-Encoding: gzip and the same status codes, and its body decodes to exactly the bytes `next` wrote |
| `Common.GzipAsWrittenUndecodable` | common/custom_types.go:17-20 | as written, if `next` writes any body byte, the body is labelled gzip but does not decode |
| `Common.GzipAsWrittenExample` | common/common.go:50-57 | for Accept-Encoding "gzip, deflate" and a handler that writes 'A', the body as written does not decode, while the corrected decorator's body decodes to 'A' |

## Left out

- Compression itself (`gzip.NewWriter` and `gz.Close`, the RFC 1952 format) is a library the model cannot see. A gzip member is kept as the payload it compresses. The compressor writes everything as one member when it is closed, not in pieces as its buffer fills.
- `Timer` (common/common.go:22-27) only measures wall-clock time and logs it, so it is not modelled.
- The `log.Printf` output sink is not modelled. `Logger` returns the line it would print.
- The `net/http` server, request parsing and `URL.String()` are not modelled. The remote address, method, URL string and request headers are plain inputs.
- Header keys are taken as already canonical, and a header holds a single value.
- The real writer only records calls. Several `net/http` behaviours are therefore absent:
  - the implicit `WriteHeader(200)` on the first `Write`;
  - ignoring a second `WriteHeader`;
  - the panic on codes outside 100-999;
  - dropping header changes made after the response is committed (after the first `WriteHeader` or `Write`). The header map keeps them, so the lemmas about headers (`Common.DontCacheDefault`, `Common.GzipContentEncoding`, `Common.GzipNegotiated`, and `Http.Decode` reading Content-Encoding) describe the writer's header map, not what a client receives when a handler sets a header late;
  - `Header().Del` and `Header().Add`. A handler can only set a key, so a handler that deletes Cache-Control, which would leave no Cache-Control at all, is outside `Common.DontCacheDefault`.
- Http.ExecGunzip and Common.GzipAsWrittenUndecodable: raw body bytes are taken never to form a gzip stream. A handler that itself writes gzip-format bytes without setting Content-Encoding (a `.tar.gz` download, say) would, behind the as-written `Gzip`, produce a valid multi-member gzip stream that a client decodes. The model calls that body undecodable.
- Panics unwinding through `defer` are not modelled. The log line and `gz.Close` run after `next` returns.
- Accept-Encoding is matched with the code's raw substring check, not the token negotiation of section 12.5.3 of RFC 9110.
- Concurrency between `Add`/`Wrap` and serving is not modelled. The code does not synchronise it.
- Quake.Middleware.ServeHTTP: the request and writer are not passed on, because the stack model's handlers are abstract. Serving is the trace of the composed handler.
- The concrete decorators (`Common`) take a terminal handler, written as a script, as `next`. Chains of concrete decorators are modelled only through the abstract traces of `Quake`.

## Findings

| source | as written | input that shows it | evidently intended | confidence | as-written member | corrected member |
|---|---|---|---|---|---|---|
| common/custom_types.go:17-20 | `GzipResponseWriter` declares no `Write`, and `Writer` is a named field, not an embedded one, so `Write` is promoted from the embedded real writer. Gzip (common/common.go:54-57) sets `Content-Encoding: gzip`, the handler's bytes go out uncompressed, and `gz.Close` appends an empty gzip stream. The comment at common/common.go:46-47 promises compression. | Accept-Encoding `gzip, deflate`; the handler writes `A` | body writes go through the gzip writer, so the body decodes to exactly what the handler wrote | high, not executed | `Common.GzipAsWrittenUndecodable` | `Common.GzipNegotiated` |

=== FILE: common.dfy ===
/**
 * The decorators of package common: DontCache, Logger and Gzip. Each one takes
 * the next handler, here the script of calls it makes on its writer, and
 * serves a request by doing its own work on the writer around that handler.
 */
module Common {
  import opened Wrappers
  import opened GoStrings
  import opened Http
  import opened CustomTypes

  const CacheControl := "Cache-Control"
  const NoCache := "max-age=0, no-cache, must-revalidate"
  const AcceptEncoding := "Accept-Encoding"
  const ContentEncoding := "Content-Encoding"

  // DontCache

  /** The response after DontCache: the Cache-Control default, then `next`. */
  function DontCacheSpec(s: Response, next: Script): Response {
    Exec(s.(header := s.header[CacheControl := NoCache]), next)
  }

  method DontCache(w: ResponseWriter, next: Script)
    modifies w
    ensures w.State() == DontCacheSpec(old(w.State()), next)
  {
    w.SetHeader(CacheControl, NoCache);
    Serve(w, next);
  }

  /** The default is not a lock: the final Cache-Control is the last value the
      handler set, or the no-cache default when it set none. */
  lemma {:induction false} DontCacheDefault(s: Response, next: Script)
    ensures Lookup(DontCacheSpec(s, next).header, CacheControl) == Some(LastSet(next, CacheControl).GetOr(NoCache))
  {
    ExecHeader(s.(header := s.header[CacheControl := NoCache]), next, CacheControl);
  }

  /** Apart from Cache-Control, the response is what `next` alone makes of it. */
  lemma {:induction false} DontCacheTouchesOnlyCacheControl(s: Response, next: Script, key: string)
    requires key != CacheControl
    ensures Lookup(DontCacheSpec(s, next).header, key) == Lookup(Exec(s, next).header, key)
    ensures DontCacheSpec(s, next).codes == Exec(s, next).codes
    ensures DontCacheSpec(s, next).body == Exec(s, next).body
  {
    var h := s.header[CacheControl := NoCache];
    ExecHeader(s.(header := h), next, key);
    ExecHeader(s, next, key);
    ExecIgnoresHeader(s, h, next);
  }

  // Logger

  /** The remote address with the port cut off at the last ':'. */
  function StripPort(addr: string): (r: string)
    ensures ':' !in addr ==> r == addr
    ensures ':' in addr ==> |r| < |addr| && addr == r + [':'] + addr[|r| + 1..] && ':' !in addr[|r| + 1..]
  {
    LastIndexChar(addr, ':');
    var i := LastIndex(addr, ":");
    if i != -1 then addr[..i] else addr
  }

  /** "203.0.113.5:54321" is logged as "203.0.113.5". */
  lemma StripPortIPv4()
    ensures StripPort("203.0.113.5:54321") == "203.0.113.5"
  {
    var a := "203.0.113.5:54321";
    assert a[11] == ':';
    var r := StripPort(a);
    var n := |r|;
    assert a[n] == ':' by {
      assert a == r + [':'] + a[n + 1..];
    }
    assert a[12] != ':' && a[13] != ':' && a[14] != ':' && a[15] != ':' && a[16] != ':';
    assert n == 11;
    assert r == a[..11];
  }

  /** An address without ':' is logged unchanged. */
  lemma StripPortNoColon()
    ensures StripPort("no-colon-addr") == "no-colon-addr"
  {
    var a := "no-colon-addr";
    forall k | 0 <= k < |a|
      ensures a[k] != ':'
    {
    }
  }

  /** The path as Logger prints it: one leading '/' trimmed, then '/' put back,
      so a URL starting with '/' appears unchanged ("//a" stays "//a") and any
      other URL appears with a '/' in front. */
  function LoggedPath(url: string): (p: string)
    ensures "/" <= url ==> p == url
    ensures !("/" <= url) ==> p == "/" + url
  {
    "/" + TrimPrefix(url, "/")
  }

  /** The status code a log line reports: the numeral after its last " -". */
  function TrailingCode(line: string): Option<int> {
    var k := LastIndex(line, " -");
    if k == -1 then None else ParseInt(line[k + 2..])
  }

  lemma NoSeparatorAt(prefix: string, d: string, j: int)
    requires ' ' !in d && |prefix| < j
    ensures !OccursAt(prefix + " -" + d, " -", j)
  {
    var line := prefix + " -" + d;
    if j + 2 <= |line| {
      if j == |prefix| + 1 {
        assert line[j] == '-';
      } else {
        assert line[j] == d[j - |prefix| - 2];
      }
      assert line[j..j + 2][0] == line[j] != ' ' == " -"[0];
    }
  }

  /** In `prefix + " -" + d`, with no space in `d`, the last " -" is the one
      just before `d`. */
  lemma LastSeparator(prefix: string, d: string)
    requires ' ' !in d
    ensures LastIndex(prefix + " -" + d, " -") == |prefix|
  {
    var line := prefix + " -" + d;
    var p := |prefix|;
    assert line[p..p + 2] == " -";
    assert OccursAt(line, " -", p);
    var r := LastIndex(line, " -");
    if r != p {
      if r > p {
        NoSeparatorAt(prefix, d, r);
      }
    }
  }

  /** The line Logger prints for request `r` whose writer ended with `code`: it
      opens with the address in brackets, the method and the logged path, then
      " -", directly followed by the `%d` form of `code` and nothing else; the
      numeral after its last " -" reads back as exactly `code`, even when the
      URL itself contains " -". */
  function LogLine(r: Request, code: int): (line: string)
    ensures var p := "[" + StripPort(r.remoteAddr) + "] " + r.httpMethod + " " + LoggedPath(r.url) + " -";
      p <= line && ' ' !in line[|p|..] && line[|p|..] == FormatInt(code)
    ensures TrailingCode(line) == Some(code)
  {
    var prefix := "[" + StripPort(r.remoteAddr) + "] " + r.httpMethod + " " + LoggedPath(r.url);
    var d := FormatInt(code);
    LastSeparator(prefix, d);
    assert (prefix + " -" + d)[|prefix| + 2..] == d;
    FormatIntRoundTrip(code);
    prefix + " -" + d
  }

  /** Logger: wraps the writer, runs `next`, then (deferred) builds the line from
      the code the wrapper holds once `next` has returned. */
  method Logger(w: ResponseWriter, r: Request, next: Script) returns (line: string)
    modifies w
    ensures w.State() == Exec(old(w.State()), next)
    ensures line == LogLine(r, LastCode(next, StatusOK))
  {
    var lrw := new LogResponseWriter(w);
    ServeLogged(lrw, next);
    line := LogLine(r, lrw.code);
  }

  /** The line reports the last status the handler wrote, or 200 if it wrote none. */
  lemma LoggerReportsStatus(r: Request, next: Script)
    ensures var cs := Codes(next);
      TrailingCode(LogLine(r, LastCode(next, StatusOK))) == Some(if cs == [] then StatusOK else cs[|cs| - 1])
  {
    LastCodeIsLastWritten(next, StatusOK);
  }

  // Gzip

  /** The request's Accept-Encoding mentions "gzip" anywhere (a substring test);
      a request without the header does not accept it. */
  predicate AcceptsGzip(r: Request): (b: bool)
    ensures b <==> AcceptEncoding in r.header && exists i :: OccursAt(r.header[AcceptEncoding], "gzip", i)
  {
    Contains(Get(r.header, AcceptEncoding), "gzip")
  }

  /** The response after Gzip, with body writes going through the compressor. */
  function GzipSpec(s: Response, r: Request, next: Script): Response {
    if !AcceptsGzip(r) then Exec(s, next)
    else
      var t := Exec(s.(header := s.header[ContentEncoding := "gzip"]), WithoutWrites(next));
      t.(body := t.body + [GzipMember(Payload(next))])
  }

  /** The response after Gzip as the code is written: the wrapper has no Write
      of its own, so body writes reach the real writer uncompressed, and closing
      the unused compressor appends an empty gzip member. */
  function GzipAsWrittenSpec(s: Response, r: Request, next: Script): Response {
    if !AcceptsGzip(r) then Exec(s, next)
    else
      var t := Exec(s.(header := s.header[ContentEncoding := "gzip"]), next);
      t.(body := t.body + [GzipMember([])])
  }

  method Gzip(w: ResponseWriter, r: Request, next: Script)
    modifies w
    ensures w.State() == GzipSpec(old(w.State()), r, next)
  {
    if !Contains(Get(r.header, AcceptEncoding), "gzip") {
      Serve(w, next);
      return;
    }
    w.SetHeader(ContentEncoding, "gzip");
    var gz := new GzipWriter(w);
    var gw := new GzipResponseWriter(w, gz);
    ServeGzipped(gw, next);
    assert gz.pending == Payload(next);
    gz.Close();
  }

  method GzipAsWritten(w: ResponseWriter, r: Request, next: Script)
    modifies w
    ensures w.State() == GzipAsWrittenSpec(old(w.State()), r, next)
  {
    if !Contains(Get(r.header, AcceptEncoding), "gzip") {
      Serve(w, next);
      return;
    }
    w.SetHeader(ContentEncoding, "gzip");
    var gz := new GzipWriter(w);
    var gw := new GzipResponseWriter(w, gz);
    // Every method of gw is promoted from the embedded writer.
    Serve(gw.inner, next);
    gz.Close();
  }

  /** Without "gzip" in Accept-Encoding the decorator, corrected or as written,
      is transparent: the response is what `next` alone makes of it. */
  lemma GzipTransparent(s: Response, r: Request, next: Script)
    requires !AcceptsGzip(r)
    ensures GzipSpec(s, r, next) == Exec(s, next)
    ensures GzipAsWrittenSpec(s, r, next) == Exec(s, next)
  {
  }

  /** Without "gzip" in Accept-Encoding, a response that started with no body
      and no Content-Encoding, from a handler that sets none, carries no
      Content-Encoding and reads back as exactly the bytes `next` wrote. */
  lemma GzipDeclined(s: Response, r: Request, next: Script)
    requires !AcceptsGzip(r)
    requires s.body == [] && ContentEncoding !in s.header && LastSet(next, ContentEncoding) == None
    ensures ContentEncoding !in GzipSpec(s, r, next).header
    ensures Decode(GzipSpec(s, r, next)) == Some(Payload(next))
  {
    ExecHeader(s, next, ContentEncoding);
    ExecBody(s, next, []);
    assert [] + Payload(next) == Payload(next);
  }

  /** With "gzip" in Accept-Encoding, Content-Encoding is set to gzip before
      `next` runs, so it holds unless `next` sets it again. */
  lemma GzipContentEncoding(s: Response, r: Request, next: Script)
    requires AcceptsGzip(r)
    ensures Lookup(GzipSpec(s, r, next).header, ContentEncoding) == Some(LastSet(next, ContentEncoding).GetOr("gzip"))
    ensures Lookup(GzipAsWrittenSpec(s, r, next).header, ContentEncoding) == Some(LastSet(next, ContentEncoding).GetOr("gzip"))
  {
    var s' := s.(header := s.header[ContentEncoding := "gzip"]);
    ExecWithoutWrites(s', next);
    ExecHeader(s', next, ContentEncoding);
  }

  /** With "gzip" in Accept-Encoding the client gets a gzip body that decodes
      to exactly the bytes `next` wrote, and the same status codes. */
  lemma GzipNegotiated(s: Response, r: Request, next: Script)
    requires AcceptsGzip(r)
    requires s.body == [] && LastSet(next, ContentEncoding) == None
    ensures Lookup(GzipSpec(s, r, next).header, ContentEncoding) == Some("gzip")
    ensures GzipSpec(s, r, next).codes == s.codes + Codes(next)
    ensures Decode(GzipSpec(s, r, next)) == Some(Payload(next))
  {
    var s' := s.(header := s.header[ContentEncoding := "gzip"]);
    var full := Exec(s', next);
    ExecWithoutWrites(s', next);
    ExecHeader(s', next, ContentEncoding);
    ExecCodes(s', next);
    var res := GzipSpec(s, r, next);
    assert res == full.(body := [GzipMember(Payload(next))]);
    assert Lookup(res.header, ContentEncoding) == Some("gzip");
    assert Gunzip(res.body) == Some([] + Payload(next));
    assert [] + Payload(next) == Payload(next);
  }

  /** As written, a handler that writes any body byte behind "gzip" leaves the
      client a body labelled gzip that does not decode. */
  lemma GzipAsWrittenUndecodable(s: Response, r: Request, next: Script)
    requires AcceptsGzip(r)
    requires s.body == [] && LastSet(next, ContentEncoding) == None && Payload(next) != []
    ensures Lookup(GzipAsWrittenSpec(s, r, next).header, ContentEncoding) == Some("gzip")
    ensures Decode(GzipAsWrittenSpec(s, r, next)) == None
  {
    var s' := s.(header := s.header[ContentEncoding := "gzip"]);
    GzipContentEncoding(s, r, next);
    ExecGunzip(s', next);
    var b := GzipAsWrittenSpec(s, r, next).body;
    assert b[..|b| - 1] == Exec(s', next).body;
  }

  /** One request that shows the difference: "gzip, deflate" accepted, the
      handler writes the single byte 'A'. */
  lemma GzipAsWrittenExample()
    ensures var s := Response(map[], [], []);
      var r := Request("203.0.113.5:54321", "GET", "/", map[AcceptEncoding := "gzip, deflate"]);
      var next := [Write([65])];
      && Decode(GzipAsWrittenSpec(s, r, next)) == None
      && Decode(GzipSpec(s, r, next)) == Some([65])
  {
    var s := Response(map[], [], []);
    var r := Request("203.0.113.5:54321", "GET", "/", map[AcceptEncoding := "gzip, deflate"]);
    var next := [Write([65])];
    assert OccursAt(Get(r.header, AcceptEncoding), "gzip", 0);
    assert Payload(next) == [65] by {
      assert next[..0] == [];
    }
    assert LastSet(next, ContentEncoding) == None by {
      assert next[..0] == [];
    }
    GzipAsWrittenUndecodable(s, r, next);
    GzipNegotiated(s, r, next);
  }
}

=== FILE: custom_types.dfy ===
/**
 * The response-writer wrappers of package common: LogResponseWriter, which
 * records the status code it is given and passes it on, and
 * GzipResponseWriter, which pairs the real writer with a gzip compressor.
 */
module CustomTypes {
  import opened Http

  /** Wraps a writer and remembers the last status code written through it. */
  class LogResponseWriter {
    /** The embedded http.ResponseWriter. */
    const inner: ResponseWriter
    var code: int

    /** NewLogResponseWriter: wraps `w`, with the code at http.StatusOK. */
    constructor (w: ResponseWriter)
      ensures inner == w && code == StatusOK
    {
      inner := w;
      code := StatusOK;
    }

    /** Records `c`, then passes the same call on to the wrapped writer. */
    method WriteHeader(c: int)
      modifies this, inner
      ensures code == c
      ensures inner.State() == Step(old(inner.State()), Action.WriteHeader(c))
    {
      code := c;
      inner.WriteHeader(c);
    }
  }

  /** `next.ServeHTTP(lrw, r)`: the handler's calls go to `lrw`. Header() and
      Write are promoted from the embedded writer; WriteHeader is lrw's own. */
  method ServeLogged(lrw: LogResponseWriter, next: Script)
    modifies lrw, lrw.inner
    ensures lrw.inner.State() == Exec(old(lrw.inner.State()), next)
    ensures lrw.code == LastCode(next, old(lrw.code))
  {
    for i := 0 to |next|
      invariant lrw.inner.State() == Exec(old(lrw.inner.State()), next[..i])
      invariant lrw.code == LastCode(next[..i], old(lrw.code))
    {
      ExecSnoc(old(lrw.inner.State()), next[..i], next[i]);
      match next[i] {
        case SetHeader(k, v) => lrw.inner.SetHeader(k, v);
        case WriteHeader(c) => lrw.WriteHeader(c);
        case Write(d) => lrw.inner.Write(d);
      }
      assert next[..i + 1] == next[..i] + [next[i]];
    }
    assert next[..|next|] == next;
  }

  /** After the handler has run, the recorded code is the last one it wrote,
      or http.StatusOK if it wrote none, and the wrapped writer has received
      exactly the codes the handler wrote. */
  method LoggedRun(w: ResponseWriter, next: Script) returns (lrw: LogResponseWriter)
    modifies w
    ensures lrw.inner == w
    ensures var cs := Codes(next); lrw.code == if cs == [] then StatusOK else cs[|cs| - 1]
    ensures w.codes == old(w.codes) + Codes(next)
  {
    lrw := new LogResponseWriter(w);
    ServeLogged(lrw, next);
    LastCodeIsLastWritten(next, StatusOK);
    ExecCodes(old(w.State()), next);
  }

  /** Stands for compress/gzip's Writer over `dest`: it buffers what it is given
      and, when closed, writes it to `dest` as one gzip member. */
  class GzipWriter {
    const dest: ResponseWriter
    var pending: seq<byte>

    /** gzip.NewWriter(dest) */
    constructor (w: ResponseWriter)
      ensures dest == w && pending == []
    {
      dest := w;
      pending := [];
    }

    method Write(data: seq<byte>)
      modifies this
      ensures pending == old(pending) + data
    {
      pending := pending + data;
    }

    method Close()
      modifies dest
      ensures dest.State() == old(dest.State()).(body := old(dest.body) + [GzipMember(pending)])
    {
      dest.WriteGzipMember(pending);
    }
  }

  /** The embedded http.ResponseWriter and the `Writer` field. */
  class GzipResponseWriter {
    const inner: ResponseWriter
    const writer: GzipWriter

    constructor (w: ResponseWriter, gz: GzipWriter)
      ensures inner == w && writer == gz
    {
      inner := w;
      writer := gz;
    }

    /** Sends body bytes through the compressor. The type as declared has no
        Write of its own, so a Write on it reaches the embedded writer instead;
        this is the method it needs for the body to be compressed. */
    method Write(data: seq<byte>)
      modifies writer
      ensures writer.pending == old(writer.pending) + data
    {
      writer.Write(data);
    }
  }

  /** `next.ServeHTTP(gw, r)` when gw has its own Write: header and status calls
      reach the real writer, body bytes reach the compressor. */
  method ServeGzipped(gw: GzipResponseWriter, next: Script)
    modifies gw.inner, gw.writer
    ensures gw.inner.State() == Exec(old(gw.inner.State()), WithoutWrites(next))
    ensures gw.writer.pending == old(gw.writer.pending) + Payload(next)
  {
    for i := 0 to |next|
      invariant gw.inner.State() == Exec(old(gw.inner.State()), WithoutWrites(next[..i]))
      invariant gw.writer.pending == old(gw.writer.pending) + Payload(next[..i])
    {
      var a := next[i];
      assert next[..i + 1] == next[..i] + [a];
      ExecWithoutWritesSnoc(old(gw.inner.State()), next[..i], a);
      match a {
        case SetHeader(k, v) => gw.inner.SetHeader(k, v);
        case WriteHeader(c) => gw.inner.WriteHeader(c);
        case Write(d) => gw.Write(d);
      }
    }
    assert next[..|next|] == next;
  }
}

=== FILE: gostrings.dfy ===
/**
 * The few functions of Go's strings and fmt packages that the decorators use,
 * on strings as sequences of characters: strings.LastIndex,
 * strings.TrimPrefix, strings.Contains and the decimal form that the `%d` verb
 * prints for an int.
 */
module GoStrings {
  import opened Wrappers

  /** `sub` occurs in `s` starting at index `i`. */
  ghost predicate OccursAt(s: string, sub: string, i: int) {
    0 <= i && i + |sub| <= |s| && s[i..i + |sub|] == sub
  }

  /** Dropping the last character of `s` keeps every occurrence except one that ends there. */
  lemma OccursDropLast(s: string, sub: string)
    requires s != []
    ensures forall i :: i != |s| - |sub| ==> (OccursAt(s, sub, i) <==> OccursAt(s[..|s| - 1], sub, i))
  {
    forall i | i != |s| - |sub|
      ensures OccursAt(s, sub, i) <==> OccursAt(s[..|s| - 1], sub, i)
    {
      if 0 <= i && i + |sub| <= |s| - 1 {
        assert s[..|s| - 1][i..i + |sub|] == s[i..i + |sub|];
      }
    }
  }

  /** strings.LastIndex: the start of the last occurrence of `sep` in `s`, or -1. */
  function LastIndex(s: string, sep: string): (r: int)
    ensures r == -1 || 0 <= r <= |s| - |sep|
    ensures r == -1 <==> forall i :: !OccursAt(s, sep, i)
    ensures r != -1 ==> OccursAt(s, sep, r) && forall j :: r < j ==> !OccursAt(s, sep, j)
    decreases |s|
  {
    if |s| < |sep| then
      -1
    else if s[|s| - |sep|..] == sep then
      assert OccursAt(s, sep, |s| - |sep|);
      |s| - |sep|
    else
      assert s[|s| - |sep|..|s|] == s[|s| - |sep|..];
      assert !OccursAt(s, sep, |s| - |sep|);
      OccursDropLast(s, sep);
      var r := LastIndex(s[..|s| - 1], sep);
      assert r != -1 ==> OccursAt(s, sep, r);
      assert r == -1 ==> forall i :: !OccursAt(s, sep, i);
      r
  }

  lemma OccursAtChar(s: string, c: char, i: int)
    ensures OccursAt(s, [c], i) <==> 0 <= i < |s| && s[i] == c
  {
    if 0 <= i < |s| {
      assert s[i..i + 1] == [s[i]];
    }
  }

  /** For a one-character separator: the index of the last `c`, or -1 when there is none. */
  lemma LastIndexChar(s: string, c: char)
    ensures var r := LastIndex(s, [c]);
      && (r == -1 <==> c !in s)
      && (r != -1 ==> 0 <= r < |s| && s[r] == c && c !in s[r + 1..])
  {
    var r := LastIndex(s, [c]);
    if r == -1 {
      forall k | 0 <= k < |s|
        ensures s[k] != c
      {
        OccursAtChar(s, c, k);
      }
    } else {
      OccursAtChar(s, c, r);
      forall k | r < k < |s|
        ensures s[k] != c
      {
        OccursAtChar(s, c, k);
      }
    }
  }

  /** strings.TrimPrefix: `s` without `prefix` when it starts with it, else `s`. */
  function TrimPrefix(s: string, prefix: string): (r: string)
    ensures prefix <= s ==> prefix + r == s
    ensures !(prefix <= s) ==> r == s
  {
    if prefix <= s then s[|prefix|..] else s
  }

  /** strings.Contains: `sub` occurs somewhere in `s`. */
  function Contains(s: string, sub: string): (r: bool)
    ensures r <==> exists i :: OccursAt(s, sub, i)
  {
    LastIndex(s, sub) != -1
  }

  predicate IsDigit(c: char) {
    '0' <= c <= '9'
  }

  function DigitChar(d: nat): (c: char)
    requires d < 10
    ensures IsDigit(c)
  {
    ('0' as int + d) as char
  }

  function DigitValue(c: char): (d: nat)
    requires IsDigit(c)
    ensures d < 10 && DigitChar(d) == c
  {
    c as int - '0' as int
  }

  predicate AllDigits(s: string) {
    forall k :: 0 <= k < |s| ==> IsDigit(s[k])
  }

  /** The decimal digits of `n`, most significant first, without leading zeros. */
  function NatDecimal(n: nat): (r: string)
    ensures r != [] && AllDigits(r)
    ensures r[0] == '0' ==> n == 0
  {
    if n < 10 then [DigitChar(n)] else NatDecimal(n / 10) + [DigitChar(n % 10)]
  }

  /** What `%d` prints for `n`: a minus sign for a negative number, then the
      digits, with no leading zero. */
  function FormatInt(n: int): (r: string)
    ensures r != [] && ' ' !in r
    ensures r[0] == '-' <==> n < 0
    ensures AllDigits(if n < 0 then r[1..] else r)
    ensures var ds := if n < 0 then r[1..] else r; ds != [] && (ds[0] == '0' ==> n == 0)
  {
    if n < 0 then "-" + NatDecimal(-n) else NatDecimal(n)
  }

  /** The value of a string of decimal digits. */
  function ParseNat(s: string): nat
    requires AllDigits(s)
  {
    if s == [] then 0 else ParseNat(s[..|s| - 1]) * 10 + DigitValue(s[|s| - 1])
  }

  /** The integer that a decimal numeral with an optional leading minus sign denotes. */
  function ParseInt(s: string): Option<int> {
    if s == [] then None
    else if s[0] == '-' then
      if |s| > 1 && AllDigits(s[1..]) then Some(0 - ParseNat(s[1..])) else None
    else if AllDigits(s) then Some(ParseNat(s))
    else None
  }

  lemma {:induction false} ParseNatDecimal(n: nat)
    ensures ParseNat(NatDecimal(n)) == n
  {
    if n >= 10 {
      var r := NatDecimal(n);
      assert r[..|r| - 1] == NatDecimal(n / 10);
      ParseNatDecimal(n / 10);
    }
  }

  /** The printed form of an int reads back as that int. */
  lemma FormatIntRoundTrip(n: int)
    ensures ParseInt(FormatInt(n)) == Some(n)
  {
    if n < 0 {
      var s := FormatInt(n);
      assert s == "-" + NatDecimal(-n);
      assert s[0] == '-' && s[1..] == NatDecimal(-n);
      ParseNatDecimal(-n);
      assert ParseInt(s) == Some(0 - ParseNat(s[1..]));
    } else {
      ParseNatDecimal(n);
    }
  }
}

=== FILE: http.dfy ===
/**
 * The parts of net/http that the decorators touch, as a recording model.
 *
 * A response is its header map, the status codes passed to WriteHeader in
 * order, and the body as a sequence of chunks. A downstream handler (`next`)
 * is modelled as the script of calls it makes on the writer it is given.
 * Body bytes that went through a gzip compressor are kept as one abstract
 * gzip member holding the uncompressed payload; the compressed bytes
 * themselves are not modelled.
 */
module Http {
  import opened Wrappers

  newtype byte = b: int | 0 <= b < 256

  /** http.StatusOK */
  const StatusOK: int := 200

  type Header = map<string, string>

  /** http.Header.Get: the value for `key`, or "" when there is none. */
  function Get(h: Header, key: string): string {
    if key in h then h[key] else ""
  }

  function Lookup(h: Header, key: string): Option<string> {
    if key in h then Some(h[key]) else None
  }

  /** The fields of an http.Request the decorators read; the URL is its String() form. */
  datatype Request = Request(remoteAddr: string, httpMethod: string, url: string, header: Header)

  /** One call a handler makes on its http.ResponseWriter. */
  datatype Action = SetHeader(key: string, value: string) | WriteHeader(code: int) | Write(data: seq<byte>)

  /** The calls a handler makes on its writer, in order. */
  type Script = seq<Action>

  datatype Chunk = Raw(bytes: seq<byte>) | GzipMember(payload: seq<byte>)

  datatype Response = Response(header: Header, codes: seq<int>, body: seq<Chunk>)

  /** One call on an uncompressed writer. */
  function Step(s: Response, a: Action): Response {
    match a
    case SetHeader(k, v) => s.(header := s.header[k := v])
    case WriteHeader(c) => s.(codes := s.codes + [c])
    case Write(d) => s.(body := s.body + [Raw(d)])
  }

  /** A script run against an uncompressed writer. */
  function Exec(s: Response, script: Script): Response
    decreases |script|
  {
    if script == [] then s else Step(Exec(s, script[..|script| - 1]), script[|script| - 1])
  }

  // Specification functions: what a script asks for, read off the script alone.

  /** The status codes the script passes to WriteHeader, in order. */
  function Codes(script: Script): seq<int>
    decreases |script|
  {
    if script == [] then []
    else
      var last := script[|script| - 1];
      Codes(script[..|script| - 1]) + if last.WriteHeader? then [last.code] else []
  }

  /** The value of the last SetHeader of `key` in the script, if any. */
  function LastSet(script: Script, key: string): Option<string>
    decreases |script|
  {
    if script == [] then None
    else
      var last := script[|script| - 1];
      if last.SetHeader? && last.key == key then Some(last.value) else LastSet(script[..|script| - 1], key)
  }

  /** All the body bytes the script writes, in order. */
  function Payload(script: Script): seq<byte>
    decreases |script|
  {
    if script == [] then []
    else
      var last := script[|script| - 1];
      Payload(script[..|script| - 1]) + if last.Write? then last.data else []
  }

  /** The script with its body writes taken out. */
  function WithoutWrites(script: Script): (r: Script)
    ensures forall a :: a in r ==> !a.Write?
    decreases |script|
  {
    if script == [] then []
    else
      var last := script[|script| - 1];
      WithoutWrites(script[..|script| - 1]) + if last.Write? then [] else [last]
  }

  /** The bytes a client reads from a body sent without content coding. */
  function Identity(body: seq<Chunk>): Option<seq<byte>>
    decreases |body|
  {
    if body == [] then Some([])
    else
      match (Identity(body[..|body| - 1]), body[|body| - 1])
      case (Some(p), Raw(d)) => Some(p + d)
      case _ => None
  }

  /** The bytes a client reads from a body sent with `Content-Encoding: gzip`: a
      series of gzip members decodes to their payloads one after the other
      (section 2.2 of RFC 1952). Raw bytes are taken never to form a gzip
      member themselves, so any non-empty raw chunk makes the body undecodable. */
  function Gunzip(body: seq<Chunk>): Option<seq<byte>>
    decreases |body|
  {
    if body == [] then Some([])
    else
      match (Gunzip(body[..|body| - 1]), body[|body| - 1])
      case (Some(p), GzipMember(q)) => Some(p + q)
      case (Some(p), Raw(d)) => if d == [] then Some(p) else None
      case _ => None
  }

  /** What a client reads from the response, following its Content-Encoding. */
  function Decode(r: Response): Option<seq<byte>> {
    if Lookup(r.header, "Content-Encoding") == Some("gzip") then Gunzip(r.body) else Identity(r.body)
  }

  // Lemmas connecting a run of a script to the specification functions.

  lemma ExecSnoc(s: Response, script: Script, a: Action)
    ensures Exec(s, script + [a]) == Step(Exec(s, script), a)
  {
    assert (script + [a])[..|script|] == script;
  }

  /** One more call, with body writes diverted: the real writer sees the call
      unless it is a write, whose bytes join the payload instead. */
  lemma ExecWithoutWritesSnoc(s: Response, script: Script, a: Action)
    ensures Exec(s, WithoutWrites(script + [a]))
      == if a.Write? then Exec(s, WithoutWrites(script)) else Step(Exec(s, WithoutWrites(script)), a)
    ensures Payload(script + [a]) == Payload(script) + if a.Write? then a.data else []
  {
    assert (script + [a])[..|script|] == script;
    if a.Write? {
      assert WithoutWrites(script + [a]) == WithoutWrites(script) + [];
      assert WithoutWrites(script) + [] == WithoutWrites(script);
    } else {
      ExecSnoc(s, WithoutWrites(script), a);
    }
  }

  /** The writer receives exactly the status codes the script writes. */
  lemma {:induction false} ExecCodes(s: Response, script: Script)
    ensures Exec(s, script).codes == s.codes + Codes(script)
    decreases |script|
  {
    if script != [] {
      ExecCodes(s, script[..|script| - 1]);
    }
  }

  /** Header writes are last-write-wins: a key the script sets holds the value it
      set last, any other key keeps the value it had. */
  lemma {:induction false} ExecHeader(s: Response, script: Script, key: string)
    ensures Lookup(Exec(s, script).header, key)
      == if LastSet(script, key).Some? then LastSet(script, key) else Lookup(s.header, key)
    decreases |script|
  {
    if script != [] {
      ExecHeader(s, script[..|script| - 1], key);
    }
  }

  /** On an uncompressed writer the body grows by exactly the bytes written. */
  lemma {:induction false} ExecBody(s: Response, script: Script, p: seq<byte>)
    requires Identity(s.body) == Some(p)
    ensures Identity(Exec(s, script).body) == Some(p + Payload(script))
    decreases |script|
  {
    if script == [] {
      assert p + [] == p;
    } else {
      var init := script[..|script| - 1];
      ExecBody(s, init, p);
      var t := Exec(s, script);
      var last := script[|script| - 1];
      assert t == Step(Exec(s, init), last);
      if last.Write? {
        assert t.body[..|t.body| - 1] == Exec(s, init).body;
        assert t.body[|t.body| - 1] == Raw(last.data);
        assert Identity(t.body) == Some(p + Payload(init) + last.data);
        assert Payload(script) == Payload(init) + last.data;
        assert p + Payload(init) + last.data == p + (Payload(init) + last.data);
      } else {
        assert t.body == Exec(s, init).body;
        assert Payload(script) == Payload(init) + [] == Payload(init);
      }
    }
  }

  /** Running the script with its writes taken out leaves the body alone and
      does everything else the script does. */
  lemma {:induction false} ExecWithoutWrites(s: Response, script: Script)
    ensures Exec(s, WithoutWrites(script)) == Exec(s, script).(body := s.body)
    decreases |script|
  {
    if script != [] {
      var init := script[..|script| - 1];
      var last := script[|script| - 1];
      ExecWithoutWrites(s, init);
      if last.Write? {
        assert WithoutWrites(script) == WithoutWrites(init) + [];
        assert WithoutWrites(script) == WithoutWrites(init);
        assert Exec(s, script) == Step(Exec(s, init), last);
      } else {
        ExecSnoc(s, WithoutWrites(init), last);
      }
    }
  }

  /** The header map the writer starts with affects nothing but the header map. */
  lemma {:induction false} ExecIgnoresHeader(s: Response, h: Header, script: Script)
    ensures Exec(s.(header := h), script).(header := Exec(s, script).header) == Exec(s, script)
    decreases |script|
  {
    if script != [] {
      ExecIgnoresHeader(s, h, script[..|script| - 1]);
    }
  }

  /** Bytes written straight to the writer are taken not to be a gzip stream
      (see Gunzip): the body then decodes as gzip only when no byte was written. */
  lemma {:induction false} ExecGunzip(s: Response, script: Script)
    requires s.body == []
    ensures Gunzip(Exec(s, script).body) == if Payload(script) == [] then Some([]) else None
    decreases |script|
  {
    if script != [] {
      var init := script[..|script| - 1];
      var last := script[|script| - 1];
      ExecGunzip(s, init);
      var b := Exec(s, script).body;
      if last.Write? {
        assert b[..|b| - 1] == Exec(s, init).body;
      } else {
        assert Payload(script) == Payload(init) + [] == Payload(init);
      }
    }
  }

  /** The status code last written by the script, or `initial` if it writes none. */
  function LastCode(script: Script, initial: int): int
    decreases |script|
  {
    if script == [] then initial
    else if script[|script| - 1].WriteHeader? then script[|script| - 1].code
    else LastCode(script[..|script| - 1], initial)
  }

  lemma {:induction false} LastCodeIsLastWritten(script: Script, initial: int)
    ensures var cs := Codes(script);
      LastCode(script, initial) == if cs == [] then initial else cs[|cs| - 1]
    decreases |script|
  {
    if script != [] {
      LastCodeIsLastWritten(script[..|script| - 1], initial);
    }
  }

  /** The http.ResponseWriter a handler is given, recording every call it receives. */
  class ResponseWriter {
    var header: Header
    var codes: seq<int>
    var body: seq<Chunk>

    function State(): Response
      reads this
    {
      Response(header, codes, body)
    }

    constructor (s: Response)
      ensures State() == s
    {
      header, codes, body := s.header, s.codes, s.body;
    }

    /** w.Header().Set(key, value) */
    method SetHeader(key: string, value: string)
      modifies this
      ensures State() == Step(old(State()), Action.SetHeader(key, value))
    {
      header := header[key := value];
    }

    method WriteHeader(code: int)
      modifies this
      ensures State() == Step(old(State()), Action.WriteHeader(code))
    {
      codes := codes + [code];
    }

    method Write(data: seq<byte>)
      modifies this
      ensures State() == Step(old(State()), Action.Write(data))
    {
      body := body + [Raw(data)];
    }

    /** What a gzip compressor writes through this writer when it is closed. */
    method WriteGzipMember(payload: seq<byte>)
      modifies this
      ensures State() == old(State()).(body := old(body) + [GzipMember(payload)])
    {
      body := body + [GzipMember(payload)];
    }
  }

  /** `next.ServeHTTP(w, r)` for a handler whose calls on `w` are `next`. */
  method Serve(w: ResponseWriter, next: Script)
    modifies w
    ensures w.State() == Exec(old(w.State()), next)
  {
    for i := 0 to |next|
      invariant w.State() == Exec(old(w.State()), next[..i])
    {
      ExecSnoc(old(w.State()), next[..i], next[i]);
      match next[i] {
        case SetHeader(k, v) => w.SetHeader(k, v);
        case WriteHeader(c) => w.WriteHeader(c);
        case Write(d) => w.Write(d);
      }
      assert next[..i + 1] == next[..i] + [next[i]];
    }
    assert next[..|next|] == next;
  }
}

=== FILE: quake.dfy ===
/**
 * The middleware stack of package quake: an ordered list of decorators
 * (MiddlewareFunc values) that `Wrap` folds, last to first, around a terminal
 * handler, so that the first decorator added ends up outermost.
 *
 * Handlers are modelled abstractly: a terminal handler is named by an id, and
 * applying decorator `d` to a handler `h` gives `Wrapped(d, h)`. What a handler
 * does when it serves a request is its trace: every decorator contributes an
 * event before and an event after the handler it wraps.
 */
module Quake {
  import opened Wrappers

  /** Names one MiddlewareFunc. */
  type DecoratorId = nat

  /** Names one terminal http.Handler. */
  type TerminalId = nat

  datatype Handler = Terminal(id: TerminalId) | Wrapped(decorator: DecoratorId, inner: Handler)

  datatype Event = Before(decorator: DecoratorId) | Run(terminal: TerminalId) | After(decorator: DecoratorId)

  /** What serving one request with `h` does, in order. */
  function Trace(h: Handler): seq<Event> {
    match h
    case Terminal(t) => [Run(t)]
    case Wrapped(d, inner) => [Before(d)] + Trace(inner) + [After(d)]
  }

  /** The decorators around the terminal handler of `h`, outermost first. */
  function Decorators(h: Handler): seq<DecoratorId> {
    match h
    case Terminal(_) => []
    case Wrapped(d, inner) => [d] + Decorators(inner)
  }

  /** The terminal handler at the centre of `h`. */
  function Innermost(h: Handler): TerminalId {
    match h
    case Terminal(t) => t
    case Wrapped(_, inner) => Innermost(inner)
  }

  /** `ds[0](ds[1](...ds[|ds| - 1](h)))`: the stack's decorators, outermost
      first, then those already around `h`, around the same terminal handler. */
  function Compose(ds: seq<DecoratorId>, h: Handler): (r: Handler)
    ensures Decorators(r) == ds + Decorators(h)
    ensures Innermost(r) == Innermost(h)
  {
    if ds == [] then h
    else
      var inner := Compose(ds[1..], h);
      assert Decorators(Wrapped(ds[0], inner)) == [ds[0]] + (ds[1..] + Decorators(h));
      assert [ds[0]] + (ds[1..] + Decorators(h)) == ds + Decorators(h);
      Wrapped(ds[0], inner)
  }

  /** The events the decorators of `ds` produce on the way in, outermost first. */
  function Befores(ds: seq<DecoratorId>): (r: seq<Event>)
    ensures |r| == |ds|
    ensures forall i :: 0 <= i < |ds| ==> r[i] == Before(ds[i])
  {
    if ds == [] then [] else [Before(ds[0])] + Befores(ds[1..])
  }

  /** The events the decorators of `ds` produce on the way out, innermost first. */
  function Afters(ds: seq<DecoratorId>): (r: seq<Event>)
    ensures |r| == |ds|
    ensures forall i :: 0 <= i < |ds| ==> r[i] == After(ds[|ds| - 1 - i])
  {
    if ds == [] then [] else Afters(ds[1..]) + [After(ds[0])]
  }

  /** Every decorator of the stack runs its "before" part in registration order,
      then the wrapped handler runs, then the "after" parts in reverse order. */
  lemma {:induction false} TraceOfCompose(ds: seq<DecoratorId>, h: Handler)
    ensures Trace(Compose(ds, h)) == Befores(ds) + Trace(h) + Afters(ds)
  {
    if ds != [] {
      TraceOfCompose(ds[1..], h);
    }
  }

  /** The trace of a composed stack, position by position. */
  lemma {:induction false} EffectOrder(ds: seq<DecoratorId>, t: TerminalId)
    ensures var tr := Trace(Compose(ds, Terminal(t)));
      && |tr| == 2 * |ds| + 1
      && (forall i :: 0 <= i < |ds| ==> tr[i] == Before(ds[i]))
      && tr[|ds|] == Run(t)
      && (forall j :: |ds| < j < |tr| ==> tr[j] == After(ds[2 * |ds| - j]))
  {
    TraceOfCompose(ds, Terminal(t));
  }

  /** Decorators A then B around terminal T: A-before, B-before, T, B-after, A-after. */
  lemma TwoDecorators(a: DecoratorId, b: DecoratorId, t: TerminalId)
    ensures Trace(Compose([a, b], Terminal(t))) == [Before(a), Before(b), Run(t), After(b), After(a)]
  {
    TraceOfCompose([a, b], Terminal(t));
  }

  /** Composing a longer stack is composing the later part first and the earlier
      part around it: decorators added later sit inside the ones added earlier. */
  lemma {:induction false} ComposeAppend(a: seq<DecoratorId>, b: seq<DecoratorId>, h: Handler)
    ensures Compose(a + b, h) == Compose(a, Compose(b, h))
  {
    if a == [] {
      assert a + b == b;
    } else {
      assert (a + b)[0] == a[0] && (a + b)[1..] == a[1..] + b;
      ComposeAppend(a[1..], b, h);
    }
  }

  /** What `ServeHTTP` does: with no composed handler it dereferences nil. */
  datatype Outcome = NilHandler | Served(trace: seq<Event>)

  /** The Middleware struct: the decorator stack and the composed handler. */
  class Middleware {
    var stack: seq<DecoratorId>
    /** The composed handler; None stands for the nil http.Handler before `Wrap`. */
    var final: Option<Handler>

    /** NewMiddleware: an empty stack and no handler. */
    constructor ()
      ensures stack == [] && final == None
    {
      stack := [];
      final := None;
    }

    /** Appends the decorators in argument order. */
    method Add(fs: seq<DecoratorId>)
      modifies this`stack
      ensures stack == old(stack) + fs
      ensures final == old(final)
    {
      for i := 0 to |fs|
        invariant stack == old(stack) + fs[..i]
      {
        stack := stack + [fs[i]];
      }
      assert fs[..|fs|] == fs;
    }

    /** Serves a request with the composed handler. */
    method ServeHTTP() returns (o: Outcome)
      ensures final == None ==> o == NilHandler
      ensures final != None ==> o == Served(Trace(final.value))
    {
      match final
      case None => o := NilHandler;
      case Some(h) => o := Served(Trace(h));
    }

    /** Restarts from `h` and wraps the decorators around it, last to first. */
    method Wrap(h: Handler)
      modifies this`final
      ensures final == Some(Compose(stack, h))
      ensures stack == old(stack)
    {
      final := Some(h);
      var i := |stack|;
      while i > 0
        invariant 0 <= i <= |stack|
        invariant final == Some(Compose(stack[i..], h))
        decreases i
      {
        assert stack[i - 1..][1..] == stack[i..];
        final := Some(Wrapped(stack[i - 1], final.value));
        i := i - 1;
      }
    }
  }

  /** Wrapping twice with the same stack and handler gives the same composed
      handler as wrapping once. */
  method WrapTwice(ds: seq<DecoratorId>, h: Handler) returns (once: Outcome, twice: Outcome)
    ensures once == Served(Trace(Compose(ds, h)))
    ensures twice == once
  {
    var mw := new Middleware();
    mw.Add(ds);
    assert mw.stack == ds;
    mw.Wrap(h);
    once := mw.ServeHTTP();
    mw.Wrap(h);
    twice := mw.ServeHTTP();
  }

  /** Decorators added after `Wrap` leave the composed handler alone until the
      next `Wrap`, which puts them innermost, right around the terminal handler. */
  method AddAfterWrap(ds: seq<DecoratorId>, later: seq<DecoratorId>, h: Handler)
    returns (before: Outcome, after: Outcome)
    ensures before == Served(Trace(Compose(ds, h)))
    ensures after == Served(Befores(ds) + Befores(later) + Trace(h) + Afters(later) + Afters(ds))
  {
    var mw := new Middleware();
    mw.Add(ds);
    assert mw.stack == ds;
    mw.Wrap(h);
    mw.Add(later);
    before := mw.ServeHTTP();
    mw.Wrap(h);
    after := mw.ServeHTTP();
    ComposeAppend(ds, later, h);
    TraceOfCompose(ds, Compose(later, h));
    TraceOfCompose(later, h);
  }

  /** A stack that was never wrapped has no handler to serve with. */
  method ServeBeforeWrap(ds: seq<DecoratorId>) returns (o: Outcome)
    ensures o == NilHandler
  {
    var mw := new Middleware();
    mw.Add(ds);
    o := mw.ServeHTTP();
  }
}

=== FILE: wrappers.dfy ===
/** The optional value used where the Go code has a nil pointer or a missing entry. */
module Wrappers {

  datatype Option<+T> = None | Some(value: T) {

    /** The value held, or `default` when there is none. */
    function GetOr(default: T): T {
      match this
      case Some(v) => v
      case None => default
    }
  }
}
